=== FILE: README.md ===
# imdb-clone search front-end, modelled in Dafny

This project models the deterministic logic of a small React movie-search front-end built on the OMDb service. There are three parts.

- **The search screen** (`src/App.js`).
  - `fetchMovies` turns the outcome of one title search into the four pieces of screen state `{movies, isLoading, error, noResults}`.
  - The query effect debounces typing. A blank query clears the movies, the empty flag and the error at once; a request already out is not affected. Any other query arms a 500-tick timer that calls `fetchMovies` when it expires.
  - The render decides which banners show, whether the loading line or the grid appears, and the poster and rating fallbacks of each card.
- **The API module** (`src/api.js`). `searchMovies`, `fetchPopularMovies` and `fetchMovieDetails` each return a value or throw a message. Which one depends on four things: the API key, whether the request itself threw, the response status and the parsed payload.
- **The stopwatch widget** (`src/Timer.jsx`). A seconds counter moved by Start / Pause / Reset and a one-second interval, and `formatTime`, which renders the counter as `HH:MM:SS`.

The network is not modelled. One request ends in one `Http` value: it threw with a message, it came back with a non-ok status, or a parsed body arrived. In the API module the network is a function from request to `Http`. That lets "no request without a key" be stated as "the outcome does not depend on the network".

Time is also modelled as events. For the search screen these are keystrokes, clock ticks, and the arrival of one outstanding request. For the stopwatch they are button presses and interval firings.

Files:

| file | module | models |
|---|---|---|
| `wrappers.dfy` | `Wrappers` | `Option` |
| `omdb.dfy` | `Omdb` | payload shapes, the `or` fallback, the shared ok/throw/parse step |
| `jstext.dfy` | `JsText` | `trim`, `String(n)`, `padStart` |
| `api.dfy` | `Api` | `src/api.js` |
| `search.dfy` | `Search` | `fetchMovies` in `src/App.js` |
| `render.dfy` | `Render` | the render section of `src/App.js` |
| `debounce.dfy` | `Debounce` | the query effect of `src/App.js`, as an event machine |
| `stopwatch.dfy` | `Stopwatch` | `src/Timer.jsx` |

Behaviour of the code that the model keeps as written:

- The search screen sends the query exactly as typed, surrounding whitespace included (`src/App.js:62`). Only the blank test trims.
- A blank query does not switch to a "popular" feed. It clears the movies, the empty flag and the error (`src/App.js:54-59`). Nothing on the screen calls `fetchPopularMovies`.
- Requests carry no tag. Each outcome is applied when it arrives, so an older search that answers last overwrites a newer one. `Debounce.OlderAnswerOverwritesNewer` and the three lemmas after it show the consequences.
- The two missing-key messages differ. The screen's ends in "in your env.". The API module's ends in "in your .env file.". Both are modelled verbatim.

## Model

| member | source | states |
|---|---|---|
| `Omdb.OrElse` | src/App.js:42 | JavaScript `or` with a fallback on an optional string: the field when it is present and non-empty, else the fallback; never empty with a non-empty fallback |
| `Omdb.Truthy` | src/App.js:42 | JavaScript truthiness of an optional string field: present and non-empty |
| `Omdb.Succeeded` | src/App.js:36 | the acceptance test `Response === "True"` with an array `Search`, shared with src/api.js:50 |
| `Omdb.Transport` | src/api.js:18-22 | a non-ok status throws "Network response was not ok", a thrown error keeps its message, and only a parsed body is returned, unchanged |
| `JsText.IsWhitespace` | src/App.js:54 | the characters `trim` removes: ECMAScript white space and line terminators |
| `JsText.IsBlank` | src/App.js:54 | a query is blank when every character is whitespace, which `TrimEmptyIffBlank` shows is exactly `!query.trim()` |
| `JsText.Trim` | src/App.js:54 | `trim` returns a slice of the query whose two ends are not whitespace, and what it cuts off at either end is all whitespace |
| `JsText.TrimEmptyIffBlank` | src/App.js:54 | `!query.trim()` holds exactly when every character of the query is whitespace |
| `JsText.Decimal` | src/Timer.jsx:39 | `String(n)` for a non-negative integer: at least one character, its digits given by `DecimalDigits` and its value by `DecimalRoundTrip` |
| `JsText.DecimalDigits` | src/Timer.jsx:39 | `String(n)` is all decimal digits with no leading zero |
| `JsText.DecimalLength` | src/Timer.jsx:39 | `String(n)` has one digit exactly below 10 and at most two exactly below 100 |
| `JsText.DecimalRoundTrip` | src/Timer.jsx:39 | reading `String(n)` back as a decimal gives `n` |
| `JsText.PadStart` | src/Timer.jsx:39-42 | `padStart` never truncates: the result has length max(width, input length), ends with the input and is filler before it |
| `JsText.PadValue` | src/Timer.jsx:39-42 | padding with '0' keeps the decimal value |
| `JsText.PadDigits` | src/Timer.jsx:39-42 | padding digits with '0' gives digits |
| `JsText.PadDecimalValue` | src/Timer.jsx:39-42 | a zero-padded `String(n)` is digits and reads back as `n` |
| `Api.Receive` | src/api.js:10-20 | shared start of the three API calls: throws the missing-key message without a key, otherwise the transport step applied to the request's outcome |
| `Api.SearchMovies` | src/api.js:9-24 | returns exactly when there is a key and a body arrives, and then the payload unchanged whatever its `Response`; otherwise it throws the missing-key message, the network message or the thrown message |
| `Api.PopularSeedIndex` | src/api.js:37-38 | `Math.floor(u * 5)` for u in [0, 1) is a valid index into the five seed titles and the floor of `u * 5` |
| `Api.FetchPopularMovies` | src/api.js:31-55 | throws exactly when there is no key or no body arrives: the missing-key message, the network message, or the request's own error unchanged; an accepted payload returns its `Search` list, and any other payload returns `[]` instead of throwing |
| `Api.FetchMovieDetails` | src/api.js:62-82 | returns exactly when there is a key and the body says `Response === "True"`, and then returns the payload; any other body throws its `Error` text, or "Movie not found"; a non-ok status and a thrown request throw the network message and the request's own error |
| `Api.NoRequestWithoutKey` | src/api.js:10-12 | without a key all three calls throw the missing-key message and two different networks give the same outcome, so no request is made |
| `Api.PopularSeedCoversTitles` | src/api.js:37-38 | every one of the five seed titles is picked by some random number |
| `Api.PayloadFailureAsymmetry` | src/api.js:50-54 | on one failing payload, the popular feed returns `[]`, the detail lookup throws and the title search returns the payload |
| `Search.BeginFetch` | src/App.js:16-25 | without a key: the missing-key error, no movies, no empty flag, and `isLoading` untouched; with a key: loading starts, and the error and empty flag clear while the old movies stay |
| `Search.Settle` | src/App.js:27-50 | after the await loading always ends; a success shows its list with the empty flag set exactly for `[]`; a payload failure shows no movies, the empty flag and `Error` or "No results found."; a throw shows no movies, no empty flag and the message or the generic text |
| `Search.CompleteFetch` | src/App.js:27-50 | loading ends; movies appear only from an accepted payload; every other outcome leaves no movies and a non-empty error; the empty flag is set exactly when a body arrived that was not a non-empty success |
| `Search.FetchMovies` | src/App.js:15-51 | one whole call, per outcome (missing key, non-ok, throw, payload failure, success); the error ends empty exactly when there is a key and the payload is accepted |
| `Search.FetchForgetsPriorState` | src/App.js:15-51 | a call's result does not depend on the state it started from; with the key missing it keeps only the old `isLoading` |
| `Search.AgreesWithApiSearch` | src/App.js:27-50 | with a key, the screen's own fetch ends as if it awaited `searchMovies` from the API module and reduced that outcome |
| `Render.PosterUrl` | src/App.js:103-107 | the card image is the movie's poster when it is present and not "N/A", else the placeholder; it is never empty and never "N/A" |
| `Render.RatingText` | src/App.js:110 | the card rating is the movie's own when present and non-empty, else "N/A" |
| `Render.CardOf` | src/App.js:101-111 | the props of one card: title and year as given, the poster from `PosterUrl` and the rating from `RatingText`, so neither is empty |
| `Render.Cards` | src/App.js:100-112 | one card per movie, in payload order, each built with the fallbacks |
| `Render.View` | src/App.js:91-114 | the error banner shows exactly when there is an error; "No Results Found" shows exactly for the empty flag with neither loading nor an error, so the two banners never show together; the loading line replaces the grid exactly while loading, and the grid is one card per movie, built with the fallbacks |
| `Render.SettledScreen` | src/App.js:91-99 | a search ends on the screen its outcome calls for, the results, the empty banner, or the error with an empty grid: with a key from any state, even while an earlier search is loading; without a key from a state that was not loading |
| `Render.PendingScreen` | src/App.js:96-97 | while a request is out only the loading line shows: no banner, no stale grid |
| `Render.PayloadFailureHidesNoResultsBanner` | src/App.js:92-94 | after a payload failure the empty flag is set, yet "No Results Found" never shows |
| `Stopwatch.Enabled` | src/Timer.jsx:50-63 | Start is enabled only while stopped, Pause only while running, Reset always |
| `Stopwatch.Apply` | src/Timer.jsx:8-32 | Start and Pause set the running flag and keep the seconds; Reset gives 0 seconds, stopped; a tick adds one second only while running |
| `Stopwatch.Press` | src/Timer.jsx:50-63 | a click on a disabled button (Start while running, Pause while stopped) changes nothing |
| `Stopwatch.DisabledPressIsNoOp` | src/Timer.jsx:53-60 | disabling the buttons is cosmetic: a click has the same effect as its handler would have had |
| `Stopwatch.ResetIdempotent` | src/Timer.jsx:29-32 | Reset twice is Reset once |
| `Stopwatch.RunCountsRunningTicks` | src/Timer.jsx:8-19 | with no Reset, the counter advances by exactly the number of interval ticks delivered while the buttons left the watch running |
| `Stopwatch.ResetForgetsHistory` | src/Timer.jsx:29-32 | nothing that happened before a Reset influences anything after it |
| `Stopwatch.ClockFields` | src/Timer.jsx:34-37 | hours·3600 + minutes·60 + seconds is the total, with minutes and seconds below 60 |
| `Stopwatch.ClockFieldsUnique` | src/Timer.jsx:34-37 | this is the only split of the total with minutes and seconds below 60 |
| `Stopwatch.Field` | src/Timer.jsx:39-42 | a padded field has at least two characters, and exactly two below 100 |
| `Stopwatch.FieldValue` | src/Timer.jsx:39-42 | a padded field is digits and reads back as its number |
| `Stopwatch.FormatTime` | src/Timer.jsx:34-43 | the display has colons at the `MM` and `SS` boundaries and at least eight characters, exactly eight below 100 hours |
| `Stopwatch.Join` | src/Timer.jsx:39-42 | `a:b:c` with two-character minutes and seconds has colons at fixed distances from the end |
| `Stopwatch.HoursBelowHundred` | src/Timer.jsx:35 | the hours field is below 100 exactly when the total is below 360000 seconds |
| `Stopwatch.ParseJoined` | src/Timer.jsx:39-42 | reading back `a:b:c` recovers the three fields' value |
| `Stopwatch.JoinedFieldsRoundTrip` | src/Timer.jsx:39-42 | three padded fields, joined, read back as the total they encode |
| `Stopwatch.FormatTimeRoundTrip` | src/Timer.jsx:34-43 | the display loses nothing: reading `formatTime(t)` back gives `t` |
| `Debounce.OnType` | src/App.js:53-60 | an unchanged query changes nothing; a blank one cancels the timer and clears movies, empty flag and error; any other arms a fresh 500-tick timer for itself; typing never calls `fetchMovies` |
| `Debounce.Fire` | src/App.js:61-63 | the timer callback calls `fetchMovies` with its query, and a request goes out only with a key |
| `Debounce.OnTick` | src/App.js:61-63 | an armed timer counts down and on its last tick calls `fetchMovies` with its query, which starts loading and sends the request when there is a key; ticks on an idle timer do nothing |
| `Debounce.OnArrive` | src/App.js:27-50 | an outcome is applied to the screen whichever outstanding request it belongs to, and removes that request |
| `Debounce.Step` | src/App.js:53-66 | every event keeps the session valid, and only a tick calls `fetchMovies`, once, with the armed query |
| `Debounce.RunStaysValid` | src/App.js:53-66 | every run from a valid session ends in a valid one: loading only with a request out, no request without a key, and an armed timer only for the current non-blank query |
| `Debounce.ReachableValid` | src/App.js:53-66 | the session after mounting is valid, so every session reachable by typing, ticks and arrivals is valid |
| `Debounce.IdleTicks` | src/App.js:61-65 | ticks with no timer armed change nothing |
| `Debounce.TicksBeforeDeadline` | src/App.js:61-63 | fewer ticks than remain only count the timer down |
| `Debounce.TicksPastDeadline` | src/App.js:61-63 | once the remaining ticks have passed, the timer has fired exactly once |
| `Debounce.BriefEdit` | src/App.js:53-65 | a keystroke followed by fewer than 500 quiet ticks calls nothing and leaves a timer only for a non-blank query |
| `Debounce.BriefBurst` | src/App.js:53-65 | a burst of keystrokes within 500 ticks of each other calls `fetchMovies` not once, and leaves one timer at most, for the last query |
| `Debounce.BurstFetchesLastQuery` | src/App.js:53-65 | a burst followed by 500 quiet ticks calls `fetchMovies` exactly once, with the last query, or never when that query is blank |
| `Debounce.ArrivalsIrrelevant` | src/App.js:53-66 | answers arriving never change the query, the pending timer or the calls to `fetchMovies`: a run with arrivals agrees on these with its keystrokes and ticks alone |
| `Debounce.BriefBurstDespiteArrivals` | src/App.js:53-65 | a burst of keystrokes within 500 ticks of each other calls nothing and leaves one timer at most, for the last query, even with answers arriving during it |
| `Debounce.BurstFetchesLastQueryDespiteArrivals` | src/App.js:53-65 | a burst followed by 500 quiet ticks calls `fetchMovies` exactly once, with the last query, or never when it is blank, even with answers arriving during the burst or the quiet spell |
| `Debounce.DelayIsExact` | src/App.js:61-63 | 499 quiet ticks after a new query call nothing; the 500th calls `fetchMovies` with it |
| `Debounce.OlderAnswerOverwritesNewer` | src/App.js:28-38 | with two searches out, the older one answering last puts its movies on screen |
| `Debounce.LoadingEndsEarly` | src/App.js:48-50 | the loading line goes away when the first of two outstanding requests answers |
| `Debounce.StaleErrorBesideResults` | src/App.js:23-25 | an older search's error survives a newer search's success, so the error banner shows above the new results |
| `Debounce.BlankQueryThenLateAnswer` | src/App.js:54-59 | clearing the query does not cancel an outstanding search, and its answer still fills the grid under an empty search box |

## Left out

- `fetch`, `response.json()`, the OMDb endpoint and its URLs, including `encodeURIComponent`. They are network I/O and library behaviour. A request's outcome is an input, and a body that fails to parse counts as a thrown request.
- The JSON payload is reduced to the fields the code reads. A `Search` field that is not an array is `None`, as `Array.isArray` would reject it. Non-string field values are not modelled.
- React itself: hooks, re-rendering and JSX markup. The model keeps only the state transitions and the render precedence. One React behaviour is modelled: setting an unchanged query does not re-run the effect.
- `src/MovieCard.jsx` and `src/app.jsx` are pure presentation and a fixed demo, so they are not part of this model.
- Wall-clock time. `setTimeout` and `setInterval` become discrete tick events. The interval's 1000 ms period is one `IntervalTick`, and the 500 ms debounce is 500 ticks.
- The timer teardown on unmount. The model has no unmount.
- `Api.PopularSeedIndex`: `Math.random` is modelled as an exact real in [0, 1), without floating-point rounding.
- `Stopwatch.FormatTime`: `String(hours)` is modelled for non-negative integers only. The counter never goes negative, and numbers too large for exact floating-point display are not modelled.

=== FILE: api.dfy ===
/**
 The extracted API module: three async functions that each check for the
 API key, make one OMDb request and classify its outcome into a returned
 value or a thrown error. The network is a parameter: for every request it
 says how that request ends.
 */
module Api {
  import opened Omdb

  type Network = Request -> Http

  const MissingKey: string := "Missing OMDb API key. Set REACT_APP_OMDB_API_KEY in your .env file."
  const MovieNotFound: string := "Movie not found"

  /** The titles searched to stand in for a "popular" feed. */
  const PopularSeeds: seq<string> := ["Batman", "Avengers", "Star Wars", "Spider", "Matrix"]

  /** The common prefix of all three functions: throw at once without a key,
      otherwise send `req` and pass its outcome through the transport step. */
  function Receive(hasKey: bool, network: Network, req: Request): (r: Outcome<Payload>)
    ensures !hasKey ==> r == Thrown(MissingKey)
    ensures hasKey ==> r == Transport(network(req))
  {
    if !hasKey then Thrown(MissingKey) else Transport(network(req))
  }

  /** `searchMovies(query)`: the parsed body of a title search, returned as
      it is; `Response` is never looked at, so a payload failure is returned
      too. Errors are the missing key, a non-ok status, or whatever the
      request threw. */
  function SearchMovies(hasKey: bool, network: Network, query: string): (r: Outcome<Payload>)
    ensures r.Returned? <==> hasKey && network(SearchTitle(query)).Body?
    ensures r.Returned? ==> r.value == network(SearchTitle(query)).payload
    ensures !hasKey ==> r.message == MissingKey
    ensures hasKey && network(SearchTitle(query)).NotOk? ==> r.message == NetworkNotOk
    ensures hasKey && network(SearchTitle(query)).Threw? ==> r.message == network(SearchTitle(query)).message
  {
    Receive(hasKey, network, SearchTitle(query))
  }

  /** The seed chosen by `Math.floor(Math.random() * 5)`, for a random
      number `u` in [0, 1). */
  function PopularSeedIndex(u: real): (i: nat)
    requires 0.0 <= u < 1.0
    ensures i < |PopularSeeds|
    ensures i as real <= u * 5.0 < i as real + 1.0
  {
    (u * 5.0).Floor
  }

  /** `fetchPopularMovies()` with random number `u`: the result list of a
      search for one seed title. A payload failure degrades to an empty
      list; only the missing key, a non-ok status or a thrown request
      throw. */
  function FetchPopularMovies(hasKey: bool, network: Network, u: real): (r: Outcome<seq<Movie>>)
    requires 0.0 <= u < 1.0
    ensures var h := network(SearchTitle(PopularSeeds[PopularSeedIndex(u)]));
      && (!hasKey ==> r == Thrown(MissingKey))
      && (hasKey ==> (r.Thrown? <==> !h.Body?))
      && (hasKey && h.Body? && Succeeded(h.payload) ==> r == Returned(h.payload.search.value))
      && (hasKey && h.Body? && !Succeeded(h.payload) ==> r == Returned([]))
      && (hasKey && h.NotOk? ==> r == Thrown(NetworkNotOk))
      && (hasKey && h.Threw? ==> r == Thrown(h.message))
  {
    var seed := PopularSeeds[PopularSeedIndex(u)];
    match Receive(hasKey, network, SearchTitle(seed))
    case Thrown(m) => Thrown(m)
    case Returned(data) => if Succeeded(data) then Returned(data.search.value) else Returned([])
  }

  /** `fetchMovieDetails(imdbID)`: the body of an id lookup when it says
      `Response === "True"`; any other body throws its own `Error` text,
      or "Movie not found" when it has none. */
  function FetchMovieDetails(hasKey: bool, network: Network, imdbId: string): (r: Outcome<Payload>)
    ensures var h := network(LookupId(imdbId));
      && (r.Returned? <==> hasKey && h.Body? && h.payload.response == "True")
      && (r.Returned? ==> r.value == h.payload)
      && (!hasKey ==> r == Thrown(MissingKey))
      && (hasKey && h.NotOk? ==> r == Thrown(NetworkNotOk))
      && (hasKey && h.Body? && h.payload.response != "True" ==> r == Thrown(OrElse(h.payload.error, MovieNotFound)))
      && (hasKey && h.Threw? ==> r == Thrown(h.message))
    ensures r.Thrown? ==> r.message != "" || (hasKey && network(LookupId(imdbId)).Threw?)
  {
    match Receive(hasKey, network, LookupId(imdbId))
    case Thrown(m) => Thrown(m)
    case Returned(data) =>
      if data.response == "True" then Returned(data) else Thrown(OrElse(data.error, MovieNotFound))
  }

  /** Without a key none of the three functions looks at the network: any
      two networks give the same outcome. */
  lemma NoRequestWithoutKey(n1: Network, n2: Network, query: string, u: real, imdbId: string)
    requires 0.0 <= u < 1.0
    ensures SearchMovies(false, n1, query) == SearchMovies(false, n2, query) == Thrown(MissingKey)
    ensures FetchPopularMovies(false, n1, u) == FetchPopularMovies(false, n2, u) == Thrown(MissingKey)
    ensures FetchMovieDetails(false, n1, imdbId) == FetchMovieDetails(false, n2, imdbId) == Thrown(MissingKey)
  {
  }

  /** The popular feed always searches one of the five fixed titles, and
      every title can be picked. */
  lemma PopularSeedCoversTitles(i: nat)
    requires i < |PopularSeeds|
    ensures PopularSeedIndex(i as real / 5.0) == i
  {
  }

  /** The asymmetry between the modes: on the same failing payload, the
      popular feed returns an empty list while the detail lookup throws,
      and a title search returns the payload untouched. */
  lemma PayloadFailureAsymmetry(u: real, imdbId: string, query: string, p: Payload)
    requires 0.0 <= u < 1.0
    requires p.response != "True"
    ensures var network := (req: Request) => Body(p);
      && FetchPopularMovies(true, network, u) == Returned([])
      && FetchMovieDetails(true, network, imdbId).Thrown?
      && SearchMovies(true, network, query) == Returned(p)
  {
  }
}

=== FILE: debounce.dfy ===
/**
 The search screen over time. The query effect runs whenever the query
 changes: a blank query clears the results at once; any other query arms a
 500-tick timer whose expiry calls `fetchMovies` with that query, and the
 next change cancels it. Requests are not tagged, so their outcomes are
 applied in whatever order they arrive.

 Time and the network are events: a keystroke that sets the query, one
 clock tick, and the arrival of the outcome of one outstanding request.
 */
module Debounce {
  import opened Omdb
  import opened JsText
  import opened Search
  import Render

  /** The debounce delay, in ticks. */
  const Delay: nat := 500

  /** The pending `setTimeout`, if any: the query it will fetch and the
      ticks left before it fires. */
  datatype Timer = Idle | Armed(query: string, remaining: nat)

  /** The component: the query text, the screen state, the pending timer,
      the queries of the requests still outstanding (oldest first), and
      every query `fetchMovies` has been called with so far. */
  datatype Session = Session(
    query: string,
    ui: UiState,
    timer: Timer,
    inFlight: seq<string>,
    calls: seq<string>)

  datatype Event = Type(text: string) | Tick | Arrive(index: nat, outcome: Http)

  /** After the first render: the effect has run on the empty query. */
  const Mounted: Session := Session("", Search.Initial, Idle, [], [])

  /** The states the session can be in: loading only while some request is
      outstanding, no request at all without a key, and an armed timer
      always for the current, non-blank query with 1 to 500 ticks left. */
  predicate Valid(hasKey: bool, s: Session) {
    && (s.ui.isLoading ==> |s.inFlight| > 0)
    && (!hasKey ==> s.inFlight == [])
    && (s.timer.Armed? ==> s.timer.query == s.query && !IsBlank(s.query) && 1 <= s.timer.remaining <= Delay)
  }

  /** A keystroke. An unchanged query does not re-run the effect. Otherwise
      the previous timer is cancelled; a blank query clears movies, the
      empty flag and the error at once, and any other query arms a fresh
      timer for itself. Typing never calls `fetchMovies` itself. */
  function OnType(s: Session, text: string): (r: Session)
    ensures r.query == text
    ensures r.calls == s.calls && r.inFlight == s.inFlight && r.ui.isLoading == s.ui.isLoading
    ensures text == s.query ==> r == s
    ensures text != s.query && IsBlank(text) ==> r.timer == Idle && r.ui.movies == [] && !r.ui.noResults && r.ui.error == ""
    ensures text != s.query && !IsBlank(text) ==> r.timer == Armed(text, Delay) && r.ui == s.ui
  {
    if text == s.query then s
    else if IsBlank(text) then s.(query := text, timer := Idle, ui := s.ui.(movies := [], noResults := false, error := ""))
    else s.(query := text, timer := Armed(text, Delay))
  }

  /** The timer callback: `fetchMovies(query)`. A request goes out only
      when there is a key. */
  function Fire(hasKey: bool, s: Session, q: string): (r: Session)
    ensures r.calls == s.calls + [q] && r.timer == Idle && r.query == s.query
    ensures r.inFlight == if hasKey then s.inFlight + [q] else s.inFlight
    ensures r.ui == BeginFetch(s.ui, hasKey)
  {
    s.(timer := Idle, calls := s.calls + [q], ui := BeginFetch(s.ui, hasKey),
       inFlight := if hasKey then s.inFlight + [q] else s.inFlight)
  }

  /** One clock tick: an armed timer counts down, and fires on its last tick. */
  function OnTick(hasKey: bool, s: Session): (r: Session)
    ensures s.timer.Idle? ==> r == s
    ensures s.timer.Armed? && s.timer.remaining > 1 ==> r == s.(timer := Armed(s.timer.query, s.timer.remaining - 1))
    ensures s.timer.Armed? && s.timer.remaining <= 1 ==> r == Fire(hasKey, s, s.timer.query)
  {
    match s.timer
    case Idle => s
    case Armed(q, n) => if n <= 1 then Fire(hasKey, s, q) else s.(timer := Armed(q, n - 1))
  }

  /** The outcome of outstanding request `i` arrives and is applied to the
      screen state, whichever request it belongs to; an index with no
      request behind it changes nothing. */
  function OnArrive(s: Session, i: nat, h: Http): (r: Session)
    ensures i >= |s.inFlight| ==> r == s
    ensures i < |s.inFlight| ==> |r.inFlight| == |s.inFlight| - 1 && r.ui == CompleteFetch(s.ui, h)
    ensures i < |s.inFlight| ==> r.inFlight == s.inFlight[..i] + s.inFlight[i + 1..]
    ensures r.query == s.query && r.timer == s.timer && r.calls == s.calls
  {
    if i < |s.inFlight| then s.(ui := CompleteFetch(s.ui, h), inFlight := s.inFlight[..i] + s.inFlight[i + 1..])
    else s
  }

  /** One event. Only a tick can call `fetchMovies`, at most once, and
      every event keeps the session in a valid state. */
  function Step(hasKey: bool, s: Session, e: Event): (r: Session)
    ensures Valid(hasKey, s) ==> Valid(hasKey, r)
    ensures !e.Tick? ==> r.calls == s.calls
    ensures r.calls == s.calls || (e.Tick? && s.timer.Armed? && r.calls == s.calls + [s.timer.query])
  {
    match e
    case Type(text) => OnType(s, text)
    case Tick => OnTick(hasKey, s)
    case Arrive(i, h) => OnArrive(s, i, h)
  }

  function Run(hasKey: bool, s: Session, es: seq<Event>): Session
    decreases es
  {
    if es == [] then s else Run(hasKey, Step(hasKey, s, es[0]), es[1..])
  }

  /** Every event sequence keeps a valid session valid. */
  lemma {:induction false} RunStaysValid(hasKey: bool, s: Session, es: seq<Event>)
    requires Valid(hasKey, s)
    ensures Valid(hasKey, Run(hasKey, s, es))
    decreases es
  {
    if es != [] {
      RunStaysValid(hasKey, Step(hasKey, s, es[0]), es[1..]);
    }
  }

  /** The session after mounting is valid, and so is every session reached
      from it. */
  lemma ReachableValid(hasKey: bool, es: seq<Event>)
    ensures Valid(hasKey, Mounted)
    ensures Valid(hasKey, Run(hasKey, Mounted, es))
  {
    RunStaysValid(hasKey, Mounted, es);
  }

  lemma {:induction false} RunAppend(hasKey: bool, s: Session, a: seq<Event>, b: seq<Event>)
    ensures Run(hasKey, s, a + b) == Run(hasKey, Run(hasKey, s, a), b)
    decreases a
  {
    if a == [] {
      assert a + b == b;
    } else {
      assert (a + b)[0] == a[0];
      assert (a + b)[1..] == a[1..] + b;
      RunAppend(hasKey, Step(hasKey, s, a[0]), a[1..], b);
    }
  }

  function Ticks(n: nat): (ts: seq<Event>)
    ensures |ts| == n
    ensures forall i :: 0 <= i < n ==> ts[i] == Tick
  {
    if n == 0 then [] else [Tick] + Ticks(n - 1)
  }

  /** Ticks on an idle timer change nothing. */
  lemma {:induction false} IdleTicks(hasKey: bool, s: Session, n: nat)
    requires s.timer.Idle?
    ensures Run(hasKey, s, Ticks(n)) == s
    decreases n
  {
    if n > 0 {
      assert Ticks(n)[1..] == Ticks(n - 1);
      IdleTicks(hasKey, s, n - 1);
    }
  }

  /** Fewer ticks than remain only count the timer down. */
  lemma {:induction false} TicksBeforeDeadline(hasKey: bool, s: Session, n: nat)
    requires s.timer.Armed? && n < s.timer.remaining
    ensures Run(hasKey, s, Ticks(n)) == s.(timer := Armed(s.timer.query, s.timer.remaining - n))
    decreases n
  {
    if n > 0 {
      assert Ticks(n)[1..] == Ticks(n - 1);
      var s1 := OnTick(hasKey, s);
      TicksBeforeDeadline(hasKey, s1, n - 1);
    }
  }

  /** Once the remaining ticks have passed, the timer has fired exactly once. */
  lemma {:induction false} TicksPastDeadline(hasKey: bool, s: Session, n: nat)
    requires s.timer.Armed? && 1 <= s.timer.remaining <= n
    ensures Run(hasKey, s, Ticks(n)) == Fire(hasKey, s, s.timer.query)
    decreases n
  {
    assert Ticks(n)[1..] == Ticks(n - 1);
    var s1 := OnTick(hasKey, s);
    if s.timer.remaining == 1 {
      IdleTicks(hasKey, s1, n - 1);
    } else {
      TicksPastDeadline(hasKey, s1, n - 1);
    }
  }

  /** One keystroke followed by `pause` ticks of quiet. */
  datatype Edit = Edit(text: string, pause: nat)

  function Typing(edits: seq<Edit>): seq<Event>
    decreases edits
  {
    if edits == [] then [] else [Type(edits[0].text)] + Ticks(edits[0].pause) + Typing(edits[1..])
  }

  /** Every keystroke changes the query. */
  predicate Changes(prev: string, edits: seq<Edit>) {
    && (|edits| > 0 ==> edits[0].text != prev)
    && (forall i :: 1 <= i < |edits| ==> edits[i - 1].text != edits[i].text)
  }

  /** Every pause is shorter than the debounce delay. */
  predicate Brief(edits: seq<Edit>) {
    forall i :: 0 <= i < |edits| ==> edits[i].pause < Delay
  }

  /** The timer a burst leaves behind: none after a blank query, else one
      for the last query with the last pause already counted off. */
  function TimerAfter(last: Edit): Timer
    requires last.pause < Delay
  {
    if IsBlank(last.text) then Idle else Armed(last.text, Delay - last.pause)
  }

  /** One keystroke and its pause, shorter than the delay: nothing is fetched. */
  lemma BriefEdit(hasKey: bool, s: Session, e: Edit)
    requires e.text != s.query && e.pause < Delay
    ensures var r := Run(hasKey, s, [Type(e.text)] + Ticks(e.pause));
      && r.calls == s.calls && r.inFlight == s.inFlight && r.query == e.text && r.timer == TimerAfter(e)
  {
    var s1 := OnType(s, e.text);
    assert ([Type(e.text)] + Ticks(e.pause))[1..] == Ticks(e.pause);
    assert Run(hasKey, s, [Type(e.text)] + Ticks(e.pause)) == Run(hasKey, s1, Ticks(e.pause));
    if IsBlank(e.text) {
      IdleTicks(hasKey, s1, e.pause);
    } else {
      TicksBeforeDeadline(hasKey, s1, e.pause);
    }
  }

  /** A burst of keystrokes, each within the delay of the one before, calls
      `fetchMovies` not once; it leaves the last query typed and at most one
      timer, armed for that query. */
  lemma {:induction false} BriefBurst(hasKey: bool, s: Session, edits: seq<Edit>)
    requires |edits| > 0 && Changes(s.query, edits) && Brief(edits)
    ensures var r := Run(hasKey, s, Typing(edits));
      && r.calls == s.calls && r.inFlight == s.inFlight
      && r.query == edits[|edits| - 1].text && r.timer == TimerAfter(edits[|edits| - 1])
    decreases edits
  {
    var e := edits[0];
    var head := [Type(e.text)] + Ticks(e.pause);
    assert Typing(edits) == head + Typing(edits[1..]);
    RunAppend(hasKey, s, head, Typing(edits[1..]));
    assert e.text != s.query && e.pause < Delay;
    BriefEdit(hasKey, s, e);
    var s1 := Run(hasKey, s, head);
    if |edits| > 1 {
      var rest := edits[1..];
      assert Changes(s1.query, rest) by {
        assert rest[0] == edits[1];
        forall i | 1 <= i < |rest|
          ensures rest[i - 1].text != rest[i].text
        {
          assert rest[i] == edits[i + 1] && rest[i - 1] == edits[i];
        }
      }
      assert Brief(rest) by {
        forall i | 0 <= i < |rest| ensures rest[i].pause < Delay {
          assert rest[i] == edits[i + 1];
        }
      }
      BriefBurst(hasKey, s1, rest);
    } else {
      assert Typing(edits[1..]) == [];
    }
  }

  /** Only the last query of a burst is fetched: keystrokes within the
      delay of each other, then a quiet spell of at least the delay, call
      `fetchMovies` exactly once, with the last query — or never, when that
      query is blank. */
  lemma BurstFetchesLastQuery(hasKey: bool, s: Session, edits: seq<Edit>)
    requires |edits| > 0 && Changes(s.query, edits)
    requires Brief(edits[..|edits| - 1]) && edits[|edits| - 1].pause >= Delay
    ensures var last := edits[|edits| - 1].text;
      Run(hasKey, s, Typing(edits)).calls == s.calls + (if IsBlank(last) then [] else [last])
  {
    var n := |edits|;
    var last := edits[n - 1];
    var before := edits[..n - 1];
    assert Typing(edits) == Typing(before) + Typing([last]) by {
      TypingAppend(before, [last]);
      assert before + [last] == edits;
    }
    RunAppend(hasKey, s, Typing(before), Typing([last]));
    var s1 := Run(hasKey, s, Typing(before));
    if n > 1 {
      assert Changes(s.query, before) by {
        assert before[0] == edits[0];
        forall i | 1 <= i < |before|
          ensures before[i - 1].text != before[i].text
        {
          assert before[i] == edits[i] && before[i - 1] == edits[i - 1];
        }
      }
      assert Brief(before);
      BriefBurst(hasKey, s, before);
      assert s1.query == edits[n - 2].text;
      assert edits[n - 1].text != edits[n - 2].text;
    } else {
      assert Typing(before) == [];
      assert edits[0].text != s.query;
    }
    assert last.text != s1.query;
    assert Typing([last]) == [Type(last.text)] + Ticks(last.pause) by {
      assert Typing([last][1..]) == [];
    }
    var s2 := OnType(s1, last.text);
    assert ([Type(last.text)] + Ticks(last.pause))[1..] == Ticks(last.pause);
    assert Run(hasKey, s1, Typing([last])) == Run(hasKey, s2, Ticks(last.pause));
    if IsBlank(last.text) {
      IdleTicks(hasKey, s2, last.pause);
    } else {
      TicksPastDeadline(hasKey, s2, last.pause);
    }
  }

  lemma {:induction false} TypingAppend(a: seq<Edit>, b: seq<Edit>)
    ensures Typing(a + b) == Typing(a) + Typing(b)
    decreases a
  {
    if a == [] {
      assert a + b == b;
    } else {
      assert (a + b)[0] == a[0];
      assert (a + b)[1..] == a[1..] + b;
      TypingAppend(a[1..], b);
    }
  }

  /** The delay is exact: after a new non-blank query, 499 quiet ticks call
      nothing and the 500th calls `fetchMovies` with that query. */
  lemma DelayIsExact(hasKey: bool, s: Session, q: string)
    requires q != s.query && !IsBlank(q)
    ensures Run(hasKey, s, Typing([Edit(q, Delay - 1)])).calls == s.calls
    ensures Run(hasKey, s, Typing([Edit(q, Delay)])).calls == s.calls + [q]
  {
    BriefBurst(hasKey, s, [Edit(q, Delay - 1)]);
    BurstFetchesLastQuery(hasKey, s, [Edit(q, Delay)]);
  }

  /** The keystrokes and ticks of a run, with the arrivals dropped. */
  function Skeleton(es: seq<Event>): (ks: seq<Event>)
    ensures forall i :: 0 <= i < |ks| ==> !ks[i].Arrive?
    decreases es
  {
    if es == [] then [] else (if es[0].Arrive? then [] else [es[0]]) + Skeleton(es[1..])
  }

  /** The part of a session the debounce decides: the query, the pending
      timer and the calls made so far. */
  predicate SameDebounce(a: Session, b: Session) {
    a.query == b.query && a.timer == b.timer && a.calls == b.calls
  }

  /** Answers arriving do not touch the debounce: a run with arrivals
      interleaved makes the same calls, and leaves the same query and
      timer, as its keystrokes and ticks alone, from any state that agrees
      on those three. */
  lemma {:induction false} ArrivalsIrrelevant(hasKey: bool, s1: Session, s2: Session, es: seq<Event>)
    requires SameDebounce(s1, s2)
    ensures SameDebounce(Run(hasKey, s1, es), Run(hasKey, s2, Skeleton(es)))
    decreases es
  {
    if es != [] {
      var e := es[0];
      if e.Arrive? {
        assert Skeleton(es) == Skeleton(es[1..]);
        ArrivalsIrrelevant(hasKey, Step(hasKey, s1, e), s2, es[1..]);
      } else {
        assert Skeleton(es) == [e] + Skeleton(es[1..]);
        assert ([e] + Skeleton(es[1..]))[1..] == Skeleton(es[1..]);
        assert SameDebounce(Step(hasKey, s1, e), Step(hasKey, s2, e));
        ArrivalsIrrelevant(hasKey, Step(hasKey, s1, e), Step(hasKey, s2, e), es[1..]);
      }
    }
  }

  /** `BriefBurst` with answers arriving anywhere in the burst: still no
      call, and at most one timer, for the last query. */
  lemma {:induction false} BriefBurstDespiteArrivals(hasKey: bool, s: Session, edits: seq<Edit>, es: seq<Event>)
    requires |edits| > 0 && Changes(s.query, edits) && Brief(edits)
    requires Skeleton(es) == Typing(edits)
    ensures var r := Run(hasKey, s, es);
      && r.calls == s.calls && r.query == edits[|edits| - 1].text && r.timer == TimerAfter(edits[|edits| - 1])
  {
    ArrivalsIrrelevant(hasKey, s, s, es);
    BriefBurst(hasKey, s, edits);
  }

  /** `BurstFetchesLastQuery` with answers arriving anywhere in the burst
      or the quiet spell: only the last query is fetched, once. */
  lemma {:induction false} BurstFetchesLastQueryDespiteArrivals(hasKey: bool, s: Session, edits: seq<Edit>, es: seq<Event>)
    requires |edits| > 0 && Changes(s.query, edits)
    requires Brief(edits[..|edits| - 1]) && edits[|edits| - 1].pause >= Delay
    requires Skeleton(es) == Typing(edits)
    ensures var last := edits[|edits| - 1].text;
      Run(hasKey, s, es).calls == s.calls + (if IsBlank(last) then [] else [last])
  {
    ArrivalsIrrelevant(hasKey, s, s, es);
    BurstFetchesLastQuery(hasKey, s, edits);
  }

  /** Outcomes are applied in arrival order: when the older of two
      outstanding searches answers last, its movies replace the newer
      search's, whatever the query now is. */
  lemma OlderAnswerOverwritesNewer(s: Session, older: Payload, newer: Payload)
    requires |s.inFlight| == 2 && Succeeded(older) && Succeeded(newer)
    ensures var r := OnArrive(OnArrive(s, 1, Body(newer)), 0, Body(older));
      && r.ui.movies == older.search.value && r.query == s.query && r.inFlight == []
  {
  }

  /** The loading line goes away when the first of two outstanding requests
      answers, although the other is still out. */
  lemma LoadingEndsEarly(s: Session, h: Http)
    requires |s.inFlight| == 2
    ensures var r := OnArrive(s, 0, h);
      !r.ui.isLoading && |r.inFlight| == 1 && !Render.View(r.ui).main.LoadingLine?
  {
  }

  /** An error from an older search survives a newer search's success,
      because only the synchronous start of a call clears the error: the
      error banner then shows above the newer results. */
  lemma StaleErrorBesideResults(s: Session, failing: Payload, found: Payload)
    requires |s.inFlight| == 2 && !Succeeded(failing) && Succeeded(found) && found.search.value != []
    ensures var r := OnArrive(OnArrive(s, 0, Body(failing)), 0, Body(found));
      && Render.View(r.ui).errorBanner.Some?
      && Render.View(r.ui).main == Render.Grid(Render.Cards(found.search.value))
  {
  }

  /** Clearing the query does not stop an outstanding search: its answer
      still fills the grid under an empty search box. */
  lemma BlankQueryThenLateAnswer(s: Session, blank: string, found: Payload)
    requires |s.inFlight| == 1 && IsBlank(blank) && blank != s.query && Succeeded(found)
    ensures var r := OnArrive(OnType(s, blank), 0, Body(found));
      && IsBlank(r.query) && r.ui.movies == found.search.value && r.inFlight == []
  {
  }
}

=== FILE: jstext.dfy ===
/**
 The three pieces of JavaScript string behaviour the front-end relies on:
 `String.prototype.trim` (to decide whether a query is blank), `String(n)`
 for a non-negative integer, and `padStart` with a one-character filler.
 */
module JsText {

  /** The characters `trim` removes: ECMAScript WhiteSpace (tab, vertical
      tab, form feed, the byte-order mark and every space separator) and
      LineTerminator (LF, CR, U+2028, U+2029). */
  predicate IsWhitespace(c: char) {
    || c == '\t' || c == '\n' || c == '\U{0B}' || c == '\U{0C}' || c == '\r' || c == ' '
    || c == '\U{A0}' || c == '\U{1680}' || ('\U{2000}' <= c <= '\U{200A}')
    || c == '\U{2028}' || c == '\U{2029}' || c == '\U{202F}' || c == '\U{205F}'
    || c == '\U{3000}' || c == '\U{FEFF}'
  }

  /** A string `trim` turns into "" — the `!query.trim()` test. */
  predicate IsBlank(s: string) {
    forall i :: 0 <= i < |s| ==> IsWhitespace(s[i])
  }

  /** Number of whitespace characters at the front of `s`. */
  function LeadingSpace(s: string): (n: nat)
    ensures n <= |s|
    ensures forall i :: 0 <= i < n ==> IsWhitespace(s[i])
    ensures n < |s| ==> !IsWhitespace(s[n])
  {
    if |s| == 0 || !IsWhitespace(s[0]) then 0 else 1 + LeadingSpace(s[1..])
  }

  /** Number of whitespace characters at the end of `s`. */
  function TrailingSpace(s: string): (n: nat)
    ensures n <= |s|
    ensures forall i :: |s| - n <= i < |s| ==> IsWhitespace(s[i])
    ensures n < |s| ==> !IsWhitespace(s[|s| - n - 1])
  {
    if |s| == 0 || !IsWhitespace(s[|s| - 1]) then 0 else 1 + TrailingSpace(s[..|s| - 1])
  }

  /** `s.trim()`: the slice of `s` between its leading and trailing whitespace. */
  function Trim(s: string): (r: string)
    ensures r == "" || (!IsWhitespace(r[0]) && !IsWhitespace(r[|r| - 1]))
    ensures exists a, b :: 0 <= a <= b <= |s| && r == s[a..b] && IsBlank(s[..a]) && IsBlank(s[b..])
  {
    var a := LeadingSpace(s);
    var rest := s[a..];
    var t := TrailingSpace(rest);
    var r := rest[..|rest| - t];
    var b := a + |r|;
    assert r == s[a..b];
    assert IsBlank(s[..a]);
    assert IsBlank(s[b..]) by {
      forall i | 0 <= i < |s[b..]| ensures IsWhitespace(s[b..][i]) {
        assert s[b..][i] == rest[|rest| - t + i];
      }
    }
    r
  }

  /** A query is blank exactly when `trim` leaves nothing of it. */
  lemma TrimEmptyIffBlank(s: string)
    ensures Trim(s) == "" <==> IsBlank(s)
  {
    var a := LeadingSpace(s);
    if a < |s| {
      assert !IsWhitespace(s[a]);
      var rest := s[a..];
      assert rest[0] == s[a];
      var t := TrailingSpace(rest);
      assert !IsWhitespace(rest[0]);
      assert t < |rest|;
      assert |Trim(s)| > 0;
    }
  }

  function DigitChar(d: nat): (c: char)
    requires d < 10
    ensures '0' <= c <= '9'
  {
    ('0' as int + d) as char
  }

  predicate IsDigits(s: string) {
    forall i :: 0 <= i < |s| ==> '0' <= s[i] <= '9'
  }

  /** `String(n)` for a non-negative integer: its decimal digits, no leading zero. */
  function Decimal(n: nat): (s: string)
    ensures 1 <= |s|
  {
    if n < 10 then [DigitChar(n)] else Decimal(n / 10) + [DigitChar(n % 10)]
  }

  /** `String(n)` is all digits, with no leading zero. */
  lemma {:induction false} DecimalDigits(n: nat)
    ensures IsDigits(Decimal(n))
    ensures |Decimal(n)| > 1 ==> Decimal(n)[0] != '0'
  {
    if n >= 10 {
      DecimalDigits(n / 10);
      var s := Decimal(n);
      assert s == Decimal(n / 10) + [DigitChar(n % 10)];
      if |Decimal(n / 10)| == 1 {
        assert n / 10 != 0;
        assert Decimal(n / 10) == [DigitChar(n / 10)];
      }
    }
  }

  /** One digit below ten, at most two below a hundred. */
  lemma DecimalLength(n: nat)
    ensures n < 10 <==> |Decimal(n)| == 1
    ensures n < 100 <==> |Decimal(n)| <= 2
  {
    if n >= 10 {
      assert |Decimal(n)| == |Decimal(n / 10)| + 1;
      DecimalLength(n / 10);
    }
  }

  /** The value of a string of decimal digits, leading zeros allowed (only
      meaningful when `IsDigits(s)`). */
  function DecimalValue(s: string): int
  {
    if s == "" then 0 else 10 * DecimalValue(s[..|s| - 1]) + (s[|s| - 1] as int - '0' as int)
  }

  lemma {:induction false} DecimalRoundTrip(n: nat)
    ensures DecimalValue(Decimal(n)) == n
  {
    if n >= 10 {
      var s := Decimal(n);
      assert s[..|s| - 1] == Decimal(n / 10);
      DecimalRoundTrip(n / 10);
      assert DigitChar(n % 10) as int - '0' as int == n % 10;
    } else {
      assert DigitChar(n) as int - '0' as int == n;
    }
  }

  /** `c` repeated `n` times. */
  function Repeat(c: char, n: nat): (r: string)
    ensures |r| == n
    ensures forall i :: 0 <= i < n ==> r[i] == c
  {
    if n == 0 then "" else [c] + Repeat(c, n - 1)
  }

  /** `s.padStart(width, [fill])`: filler in front up to `width`; a string
      already that long comes back unchanged. */
  function PadStart(s: string, width: nat, fill: char): (r: string)
    ensures |r| == if |s| < width then width else |s|
    ensures r[|r| - |s|..] == s
    ensures forall i :: 0 <= i < |r| - |s| ==> r[i] == fill
  {
    if |s| < width then Repeat(fill, width - |s|) + s else s
  }

  /** Leading zeros do not change a decimal value. */
  lemma {:induction false} ZeroPrefixValue(z: nat, s: string)
    ensures DecimalValue(Repeat('0', z) + s) == DecimalValue(s)
  {
    var p := Repeat('0', z) + s;
    if s == "" {
      ZerosValue(z);
      assert p == Repeat('0', z);
    } else {
      var init := s[..|s| - 1];
      ZeroPrefixValue(z, init);
      assert p[..|p| - 1] == Repeat('0', z) + init;
    }
  }

  lemma {:induction false} ZerosValue(z: nat)
    ensures DecimalValue(Repeat('0', z)) == 0
  {
    if z > 0 {
      var r := Repeat('0', z);
      var init := r[..|r| - 1];
      assert init == Repeat('0', z - 1) by {
        assert forall i :: 0 <= i < z - 1 ==> init[i] == '0';
      }
      ZerosValue(z - 1);
    }
  }

  /** Padding with '0' keeps a decimal value. */
  lemma PadValue(s: string, width: nat)
    ensures DecimalValue(PadStart(s, width, '0')) == DecimalValue(s)
  {
    if |s| < width {
      assert PadStart(s, width, '0') == Repeat('0', width - |s|) + s;
      ZeroPrefixValue(width - |s|, s);
    }
  }

  /** Padding digits with '0' gives digits. */
  lemma PadDigits(s: string, width: nat)
    requires IsDigits(s)
    ensures IsDigits(PadStart(s, width, '0'))
  {
    var r := PadStart(s, width, '0');
    forall i | 0 <= i < |r| ensures '0' <= r[i] <= '9' {
      if i >= |r| - |s| {
        assert r[i] == r[|r| - |s|..][i - (|r| - |s|)];
      }
    }
  }

  /** Padding a decimal with '0' keeps its digits and its value. */
  lemma PadDecimalValue(n: nat, width: nat)
    ensures IsDigits(PadStart(Decimal(n), width, '0'))
    ensures DecimalValue(PadStart(Decimal(n), width, '0')) == n
  {
    DecimalRoundTrip(n);
    DecimalDigits(n);
    PadValue(Decimal(n), width);
    PadDigits(Decimal(n), width);
  }
}

=== FILE: omdb.dfy ===
/**
 The shapes the movie search front-end receives from the OMDb service, and
 the transport step every request goes through before its JSON body is
 looked at. The network itself is not modelled: one request ends in one
 `Http` value, supplied from outside.
 */
module Omdb {
  import opened Wrappers

  /** One entry of the `Search` array: `Title`, `Year`, `imdbID`, and the
      optional `Poster` and `imdbRating` fields. */
  datatype Movie = Movie(
    title: string,
    year: string,
    imdbId: string,
    poster: Option<string>,
    imdbRating: Option<string>)

  /** The parsed JSON body. `search` is `None` when the field is absent or is
      not an array (what `Array.isArray` rejects); `error` is the `Error`
      field when present. */
  datatype Payload = Payload(response: string, search: Option<seq<Movie>>, error: Option<string>)

  /** How one request ends: the call (or the JSON parse) threw with a
      message, the response arrived with a non-2xx status, or a body arrived
      and parsed. */
  datatype Http = Threw(message: string) | NotOk | Body(payload: Payload)

  /** The two kinds of OMDb request: title search (`s=`) and id lookup (`i=`). */
  datatype Request = SearchTitle(title: string) | LookupId(imdbId: string)

  /** What an async function does: returns a value or throws an `Error` with a message. */
  datatype Outcome<+T> = Returned(value: T) | Thrown(message: string)

  const NetworkNotOk: string := "Network response was not ok"

  /** JavaScript truthiness of an optional string field: absent and "" are falsy. */
  predicate Truthy(field: Option<string>) {
    field.Some? && field.value != ""
  }

  /** The value of `field || fallback`. */
  function OrElse(field: Option<string>, fallback: string): (r: string)
    ensures Truthy(field) ==> r == field.value
    ensures !Truthy(field) ==> r == fallback
    ensures fallback != "" ==> r != ""
  {
    if Truthy(field) then field.value else fallback
  }

  /** A payload the search screens accept: `Response === "True"` and an array `Search`. */
  predicate Succeeded(p: Payload) {
    p.response == "True" && p.search.Some?
  }

  /** The shared first step after `fetch`: a non-ok status becomes a thrown
      "Network response was not ok", a thrown error passes through, and a
      parsed body is returned unchanged. */
  function Transport(h: Http): (r: Outcome<Payload>)
    ensures r.Returned? <==> h.Body?
    ensures h.Body? ==> r.value == h.payload
    ensures h.NotOk? ==> r.message == NetworkNotOk
    ensures h.Threw? ==> r.message == h.message
  {
    match h
    case Threw(m) => Thrown(m)
    case NotOk => Thrown(NetworkNotOk)
    case Body(p) => Returned(p)
  }
}

=== FILE: render.dfy ===
/**
 What the search screen shows for a given state: the error banner, the
 "No Results Found" banner, and either the loading line or the grid of
 movie cards, with the poster and rating fallbacks applied per card.
 */
module Render {
  import opened Wrappers
  import opened Omdb
  import opened Search

  const Placeholder: string := "https://via.placeholder.com/300x450?text=No+Image"
  const NotAvailable: string := "N/A"

  /** The props one movie card receives. */
  datatype Card = Card(poster: string, title: string, year: string, rating: string)

  /** The main area: the loading line, or the grid of cards. */
  datatype Main = LoadingLine | Grid(cards: seq<Card>)

  datatype Screen = Screen(errorBanner: Option<string>, noResultsBanner: bool, main: Main)

  /** The card's image: the movie's own poster when there is one and it is
      not OMDb's "N/A", else the placeholder. Never empty, never "N/A". */
  function PosterUrl(m: Movie): (r: string)
    ensures r != "" && r != NotAvailable
    ensures r == Placeholder || (m.poster == Some(r))
    ensures Truthy(m.poster) && m.poster.value != NotAvailable ==> r == m.poster.value
  {
    if Truthy(m.poster) && m.poster.value != NotAvailable then m.poster.value else Placeholder
  }

  /** The card's rating: the movie's own when present and non-empty, else "N/A". */
  function RatingText(m: Movie): (r: string)
    ensures r != ""
    ensures r == NotAvailable || m.imdbRating == Some(r)
    ensures Truthy(m.imdbRating) ==> r == m.imdbRating.value
  {
    OrElse(m.imdbRating, NotAvailable)
  }

  /** The props of one card: the movie's title and year as they are, and
      the two fallbacks, so no card shows an empty image or rating. */
  function CardOf(m: Movie): (c: Card)
    ensures c.title == m.title && c.year == m.year
    ensures c.poster == PosterUrl(m) && c.rating == RatingText(m)
    ensures c.poster != "" && c.rating != ""
  {
    Card(PosterUrl(m), m.title, m.year, RatingText(m))
  }

  /** One card per movie, in the order the payload listed them. */
  function Cards(ms: seq<Movie>): (cs: seq<Card>)
    ensures |cs| == |ms|
    ensures forall i :: 0 <= i < |ms| ==> cs[i] == CardOf(ms[i])
  {
    seq(|ms|, i requires 0 <= i < |ms| => CardOf(ms[i]))
  }

  /** The render precedence. The error banner shows exactly when there is
      an error, with its text; the "No Results Found" banner needs the empty
      flag with neither loading nor an error, so the two banners never show
      together; loading replaces the grid. */
  function View(ui: UiState): (s: Screen)
    ensures s.errorBanner.Some? <==> ui.error != ""
    ensures s.errorBanner.Some? ==> s.errorBanner.value == ui.error
    ensures s.noResultsBanner <==> ui.noResults && !ui.isLoading && ui.error == ""
    ensures !(s.noResultsBanner && s.errorBanner.Some?)
    ensures s.main.LoadingLine? <==> ui.isLoading
    ensures s.main.Grid? ==> s.main.cards == Cards(ui.movies)
  {
    Screen(
      if ui.error != "" then Some(ui.error) else None,
      ui.noResults && !ui.isLoading && ui.error == "",
      if ui.isLoading then LoadingLine else Grid(Cards(ui.movies)))
  }

  /** The display states a settled search can end in, decided from the key
      and the request outcome alone: a result list, an empty result, a
      payload failure (empty, with the payload's message), or an error. */
  datatype Display = Showing(movies: seq<Movie>) | NothingFound | EmptyWithError(message: string) | Failed(message: string)

  function Expected(hasKey: bool, h: Http): Display
  {
    if !hasKey then Failed(MissingKey)
    else
      match h
      case Threw(m) => Failed(if m == "" then SomethingWrong else m)
      case NotOk => Failed(NetworkNotOk)
      case Body(p) =>
        if p.response != "True" || p.search.None? then EmptyWithError(OrElse(p.error, NoResultsFound))
        else if |p.search.value| == 0 then NothingFound
        else Showing(p.search.value)
  }

  /** How each display state is meant to look. */
  function Shown(d: Display): Screen
  {
    match d
    case Showing(ms) => Screen(None, false, Grid(Cards(ms)))
    case NothingFound => Screen(None, true, Grid([]))
    case EmptyWithError(m) => Screen(Some(m), false, Grid([]))
    case Failed(m) => Screen(Some(m), false, Grid([]))
  }

  /** A search ends on the screen its outcome calls for: with a key from
      any state, even while an earlier search is loading, and without a key
      from a state that was not loading. */
  lemma SettledScreen(ui: UiState, hasKey: bool, h: Http)
    requires !hasKey ==> !ui.isLoading
    ensures View(FetchMovies(ui, hasKey, h)) == Shown(Expected(hasKey, h))
  {
  }

  /** While a request is out the screen shows only the loading line: no
      banner and no stale grid. */
  lemma PendingScreen(ui: UiState)
    ensures View(BeginFetch(ui, true)) == Screen(None, false, LoadingLine)
  {
  }

  /** A payload failure looks exactly like an error: the "No Results Found"
      banner never shows for it, even though the empty flag is set. */
  lemma PayloadFailureHidesNoResultsBanner(ui: UiState, p: Payload)
    requires !Succeeded(p)
    ensures FetchMovies(ui, true, Body(p)).noResults
    ensures !View(FetchMovies(ui, true, Body(p))).noResultsBanner
  {
  }
}

=== FILE: search.dfy ===
/**
 The search screen's `fetchMovies`: how one title search moves the four
 pieces of screen state `{movies, isLoading, error, noResults}`. The
 function is async, so it is split where it awaits: `BeginFetch` is what
 happens synchronously when it is called, `CompleteFetch` what happens when
 the request's outcome comes back. `FetchMovies` is the two run back to back.
 */
module Search {
  import opened Wrappers
  import opened Omdb
  import Api

  const MissingKey: string := "Missing OMDb API key. Set REACT_APP_OMDB_API_KEY in your env."
  const NoResultsFound: string := "No results found."
  const SomethingWrong: string := "Something went wrong. Please try again."

  datatype UiState = UiState(movies: seq<Movie>, isLoading: bool, error: string, noResults: bool)

  /** The state at mount: nothing shown, nothing loading. */
  const Initial: UiState := UiState([], false, "", false)

  /** The synchronous part of `fetchMovies`. Without a key it reports the
      missing key and sends nothing, leaving `isLoading` alone; with a key
      it starts loading and clears the error and the empty flag, keeping the
      previous movies until the outcome arrives. */
  function BeginFetch(ui: UiState, hasKey: bool): (r: UiState)
    ensures !hasKey ==> r.error == MissingKey && r.movies == [] && !r.noResults && r.isLoading == ui.isLoading
    ensures hasKey ==> r.isLoading && r.error == "" && !r.noResults && r.movies == ui.movies
  {
    if !hasKey then ui.(error := MissingKey, movies := [], noResults := false)
    else ui.(isLoading := true, error := "", noResults := false)
  }

  /** The `try`/`catch`/`finally` after the request settles, given what the
      transport step made of it. */
  function Settle(ui: UiState, o: Outcome<Payload>): (r: UiState)
    ensures !r.isLoading
    ensures o.Thrown? ==> r.movies == [] && !r.noResults && r.error == OrElse(Some(o.message), SomethingWrong)
    ensures o.Returned? && Succeeded(o.value) ==> r.movies == o.value.search.value && r.noResults == (r.movies == []) && r.error == ui.error
    ensures o.Returned? && !Succeeded(o.value) ==> r.movies == [] && r.noResults && r.error == OrElse(o.value.error, NoResultsFound)
  {
    match o
    case Thrown(m) => ui.(movies := [], noResults := false, error := OrElse(Some(m), SomethingWrong), isLoading := false)
    case Returned(data) =>
      if Succeeded(data) then ui.(movies := data.search.value, noResults := |data.search.value| == 0, isLoading := false)
      else ui.(movies := [], noResults := true, error := OrElse(data.error, NoResultsFound), isLoading := false)
  }

  /** The asynchronous part of `fetchMovies`: loading always ends; only an
      accepted payload puts movies on screen, and every other outcome leaves
      a non-empty error; the error set before the await is left as it is on
      success. */
  function CompleteFetch(ui: UiState, h: Http): (r: UiState)
    ensures !r.isLoading
    ensures r.movies != [] ==> h.Body? && Succeeded(h.payload) && r.movies == h.payload.search.value
    ensures h.Body? && Succeeded(h.payload) ==> r.movies == h.payload.search.value && r.error == ui.error
    ensures !(h.Body? && Succeeded(h.payload)) ==> r.movies == [] && r.error != ""
    ensures r.noResults <==> h.Body? && (Succeeded(h.payload) ==> h.payload.search.value == [])
  {
    Settle(ui, Transport(h))
  }

  /** One whole call of `fetchMovies` with the key present or not and the
      request (when one is sent) ending in `h`. */
  function FetchMovies(ui: UiState, hasKey: bool, h: Http): (r: UiState)
    ensures !hasKey ==> r.error == MissingKey && r.movies == [] && !r.noResults && r.isLoading == ui.isLoading
    ensures hasKey ==> !r.isLoading
    ensures hasKey && h.Body? && Succeeded(h.payload) ==> r.movies == h.payload.search.value && r.noResults == (r.movies == []) && r.error == ""
    ensures hasKey && h.Body? && !Succeeded(h.payload) ==> r.movies == [] && r.noResults && r.error == OrElse(h.payload.error, NoResultsFound) && r.error != ""
    ensures hasKey && h.NotOk? ==> r.movies == [] && !r.noResults && r.error == NetworkNotOk
    ensures hasKey && h.Threw? ==> r.movies == [] && !r.noResults && r.error == OrElse(Some(h.message), SomethingWrong)
    ensures r.error == "" <==> hasKey && h.Body? && Succeeded(h.payload)
  {
    if !hasKey then BeginFetch(ui, false) else CompleteFetch(BeginFetch(ui, true), h)
  }

  /** Apart from `isLoading` when the key is missing, the outcome of a call
      does not depend on the state it started from. */
  lemma FetchForgetsPriorState(ui1: UiState, ui2: UiState, hasKey: bool, h: Http)
    requires !hasKey ==> ui1.isLoading == ui2.isLoading
    ensures FetchMovies(ui1, hasKey, h) == FetchMovies(ui2, hasKey, h)
  {
  }

  /** The direct-fetch screen and the extracted API module agree: with a key,
      a call of `fetchMovies` ends as if it had awaited `searchMovies` from
      the API module and reduced its outcome. */
  lemma AgreesWithApiSearch(ui: UiState, network: Api.Network, query: string)
    ensures FetchMovies(ui, true, network(SearchTitle(query)))
         == Settle(BeginFetch(ui, true), Api.SearchMovies(true, network, query))
  {
  }
}

=== FILE: stopwatch.dfy ===
/**
 The standalone stopwatch widget: a seconds counter with a running flag,
 driven by Start / Pause / Reset button presses and by the one-second
 interval, and the `HH:MM:SS` rendering of the counter.
 */
module Stopwatch {
  import opened Wrappers
  import opened JsText

  /** The two pieces of React state: `seconds` and `isRunning`. */
  datatype Watch = Watch(seconds: nat, running: bool)

  const Initial: Watch := Watch(0, false)

  /** What can happen to the widget: a press of one of its three buttons,
      or one firing of the one-second interval. */
  datatype Event = Start | Pause | Reset | IntervalTick

  /** Start is disabled while running, Pause while stopped; Reset never is. */
  predicate Enabled(w: Watch, e: Event)
    requires !e.IntervalTick?
  {
    match e
    case Start => !w.running
    case Pause => w.running
    case Reset => true
  }

  /** The effect of one event. The interval exists only while running (the
      effect clears it when `isRunning` turns false), so a tick on a stopped
      watch changes nothing. */
  function Apply(w: Watch, e: Event): (r: Watch)
    ensures e.Start? ==> r.running && r.seconds == w.seconds
    ensures e.Pause? ==> !r.running && r.seconds == w.seconds
    ensures e.Reset? ==> r == Initial
    ensures e.IntervalTick? ==> r.running == w.running
    ensures e.IntervalTick? ==> r.seconds == if w.running then w.seconds + 1 else w.seconds
  {
    match e
    case Start => w.(running := true)
    case Pause => w.(running := false)
    case Reset => Watch(0, false)
    case IntervalTick => if w.running then w.(seconds := w.seconds + 1) else w
  }

  /** A click: the browser delivers no click to a disabled button. */
  function Press(w: Watch, e: Event): (r: Watch)
    requires !e.IntervalTick?
    ensures !Enabled(w, e) ==> r == w
  {
    if Enabled(w, e) then Apply(w, e) else w
  }

  /** Disabling the buttons is cosmetic: a click on a disabled button would
      have left the state as it was anyway. */
  lemma DisabledPressIsNoOp(w: Watch, e: Event)
    requires !e.IntervalTick?
    ensures Press(w, e) == Apply(w, e)
  {
  }

  /** Reset is idempotent and forgets the prior state. */
  lemma ResetIdempotent(w: Watch)
    ensures Apply(Apply(w, Reset), Reset) == Apply(w, Reset)
  {
  }

  function Run(w: Watch, es: seq<Event>): Watch
    decreases es
  {
    if es == [] then w else Run(Apply(w, es[0]), es[1..])
  }

  /** Reference count, independent of the counter: the interval ticks that
      arrive while the running flag, as set by the buttons, is on. */
  function RunningTicks(running: bool, es: seq<Event>): nat
    decreases es
  {
    if es == [] then 0
    else
      match es[0]
      case Start => RunningTicks(true, es[1..])
      case Pause => RunningTicks(false, es[1..])
      case Reset => RunningTicks(false, es[1..])
      case IntervalTick => (if running then 1 else 0) + RunningTicks(running, es[1..])
  }

  /** Without a Reset, the counter advances by exactly one per tick delivered
      while running, and the running flag ends as the buttons left it. */
  lemma {:induction false} RunCountsRunningTicks(w: Watch, es: seq<Event>)
    requires forall i :: 0 <= i < |es| ==> es[i] != Reset
    ensures Run(w, es).seconds == w.seconds + RunningTicks(w.running, es)
    decreases es
  {
    if es != [] {
      assert forall i :: 0 <= i < |es[1..]| ==> es[1..][i] == es[i + 1];
      RunCountsRunningTicks(Apply(w, es[0]), es[1..]);
    }
  }

  /** Whatever happened before a Reset has no influence afterwards. */
  lemma {:induction false} ResetForgetsHistory(w: Watch, before: seq<Event>, after: seq<Event>)
    ensures Run(w, before + [Reset] + after) == Run(Initial, after)
    decreases before
  {
    if before == [] {
      assert before + [Reset] + after == [Reset] + after;
      assert ([Reset] + after)[1..] == after;
    } else {
      assert (before + [Reset] + after)[1..] == before[1..] + [Reset] + after;
      ResetForgetsHistory(Apply(w, before[0]), before[1..], after);
    }
  }

  /** The clock fields: whole hours, then minutes and seconds below 60,
      which together account for exactly `total` seconds. */
  function ClockFields(total: nat): (f: (nat, nat, nat))
    ensures f.0 * 3600 + f.1 * 60 + f.2 == total
    ensures f.1 < 60 && f.2 < 60
  {
    (total / 3600, (total % 3600) / 60, total % 60)
  }

  /** The fields are the only split with minutes and seconds below 60. */
  lemma ClockFieldsUnique(total: nat, h: nat, m: nat, s: nat)
    requires h * 3600 + m * 60 + s == total && m < 60 && s < 60
    ensures ClockFields(total) == (h, m, s)
  {
    assert m * 60 + s < 3600;
    assert total / 3600 == h;
    assert total % 3600 == m * 60 + s;
  }

  /** One field, `String(n).padStart(2, "0")`. */
  function Field(n: nat): (r: string)
    ensures |r| >= 2
    ensures |r| == 2 <==> n < 100
  {
    DecimalLength(n);
    PadStart(Decimal(n), 2, '0')
  }

  /** A field is decimal digits and reads back as its number. */
  lemma FieldValue(n: nat)
    ensures IsDigits(Field(n)) && DecimalValue(Field(n)) == n
  {
    PadDecimalValue(n, 2);
  }

  /** The displayed time. Always at least `HH:MM:SS`; exactly eight
      characters below 100 hours, longer (the hours field grows) above. */
  function FormatTime(total: nat): (r: string)
    ensures |r| >= 8
    ensures |r| == 8 <==> total < 360000
    ensures r[|r| - 3] == ':' && r[|r| - 6] == ':'
  {
    var f := ClockFields(total);
    HoursBelowHundred(total);
    Join(Field(f.0), Field(f.1), Field(f.2))
  }

  /** `${a}:${b}:${c}` for two-character `b` and `c`. */
  function Join(a: string, b: string, c: string): (r: string)
    requires |b| == 2 && |c| == 2
    ensures |r| == |a| + 6 && r[|r| - 3] == ':' && r[|r| - 6] == ':'
  {
    a + ":" + b + ":" + c
  }

  lemma HoursBelowHundred(total: nat)
    ensures total / 3600 < 100 <==> total < 360000
  {
    if total < 360000 {
      assert total / 3600 * 3600 <= total;
    } else {
      assert total / 3600 >= 360000 / 3600;
    }
  }

  /** Reads an `H..H:MM:SS` display back into seconds, or `None` when the
      text does not have that shape. */
  function ParseClock(r: string): Option<int>
  {
    if |r| < 8 || r[|r| - 3] != ':' || r[|r| - 6] != ':' then None
    else FieldsValue(r[..|r| - 6], r[|r| - 5..|r| - 3], r[|r| - 2..])
  }

  function FieldsValue(h: string, m: string, s: string): Option<int>
  {
    if IsDigits(h) && IsDigits(m) && IsDigits(s)
    then Some(DecimalValue(h) * 3600 + DecimalValue(m) * 60 + DecimalValue(s))
    else None
  }

  /** Reading back a joined `h:mm:ss` text gives the value of its fields. */
  lemma ParseJoined(a: string, b: string, c: string)
    requires |a| >= 2 && |b| == 2 && |c| == 2
    ensures ParseClock(Join(a, b, c)) == FieldsValue(a, b, c)
  {
    var ab := a + ":" + b;
    var r := ab + ":" + c;
    assert |r| == |a| + 6;
    assert r[..|ab|] == ab && r[|ab| + 1..] == c;
    assert ab[..|a|] == a && ab[|a| + 1..] == b;
    assert r[|r| - 3] == ':' && r[|r| - 6] == ':';
    assert r[..|r| - 6] == ab[..|a|];
    assert r[|r| - 5..|r| - 3] == ab[|a| + 1..];
  }

  /** The display loses nothing: reading it back gives the counter. */
  lemma FormatTimeRoundTrip(total: nat)
    ensures ParseClock(FormatTime(total)) == Some(total)
  {
    var f := ClockFields(total);
    FormatTimeJoins(total);
    JoinedFieldsRoundTrip(f.0, f.1, f.2, total);
  }

  lemma JoinedFieldsRoundTrip(h: nat, m: nat, s: nat, total: nat)
    requires m < 60 && s < 60 && h * 3600 + m * 60 + s == total
    ensures ParseClock(Join(Field(h), Field(m), Field(s))) == Some(total)
  {
    var a, b, c := Field(h), Field(m), Field(s);
    assert ParseClock(Join(a, b, c)) == FieldsValue(a, b, c) by {
      ParseJoined(a, b, c);
    }
    assert FieldsValue(a, b, c) == Some(total) by {
      FieldValue(h);
      FieldValue(m);
      FieldValue(s);
      FieldsValueOf(a, b, c, h, m, s, total);
    }
  }

  lemma FieldsValueOf(a: string, b: string, c: string, h: int, m: int, s: int, total: int)
    requires IsDigits(a) && IsDigits(b) && IsDigits(c)
    requires DecimalValue(a) == h && DecimalValue(b) == m && DecimalValue(c) == s
    requires h * 3600 + m * 60 + s == total
    ensures FieldsValue(a, b, c) == Some(total)
  {
  }

  lemma FormatTimeJoins(total: nat)
    ensures var f := ClockFields(total); FormatTime(total) == Join(Field(f.0), Field(f.1), Field(f.2))
  {
  }
}

=== FILE: wrappers.dfy ===
/** The optional-value type shared by the other modules. */
module Wrappers {

  datatype Option<+T> = None | Some(value: T)
}
